=== FILE: README.md ===
# Course content index and profile store, modelled in Dafny

This project models the two pieces of pure logic in the content/data layer of the
mach-app course website:

- **The content index** (`src/api/courses.ts`). A content collection is a sequence
  of entries, each with an `id` (the file identifier), a `slug` and a `draft` flag,
  in the order the collection query enumerates them. Three queries filter it:
  - `getAllCourseIndex` keeps the live course index pages and rewrites their slugs
    to the course root.
  - `getCourseLessons(course)` keeps the live entries of one course.
  - `getAllCollectionLessons` keeps every live entry that is not an index page.

  `getCourseDirectories` makes one pass over the collection. It groups entries by the
  first piece of their slug (the *category*) into buckets `{slugs, courses, entry}`.
- **The profile store** (`src/stores/profile.ts`). Two persisted cells,
  `isConnected` and the cached `profile`, are changed by four synchronous actions:
  `setUser`, `removeUser`, `increasePoints` and `updateUser`.

Modules, one per concept:

- `Wrappers` (`wrappers.dfy`): `Option` for `null`/`undefined`; `Result` for a
  backend reply.
- `Seqs` (`seqs.dfy`): order-preserving `Filter` and `MapSeq`, with lemmas on
  concatenation, length and partition.
- `Strings` (`strings.dfy`): the JavaScript string operations the code relies on.
  These are `includes` (`Contains`), `startsWith`, `replace` with a string
  pattern (`ReplaceFirst`, which finds the leftmost match with the helper
  `IndexOf`) and `split('/')` (`Split`). `Split` is proved inverse to `Join`.
- `Courses` (`courses.dfy`): the `Entry` datatype, the three filters, and the
  index slug rewrite.
- `CourseDirectories` (`directories.dfy`): the pass of `getCourseDirectories`
  (`Visit`, folded by `Directories`). It also holds an independent
  category-by-category description (`ExpectedDir`), which is proved equal to the pass.
- `ProfileStore` (`profile.dfy`): `Session`, `User`, `Metadata` and the actions.
  It also covers the local effect of `upsertProfile`, and an `Action`/`Run` view
  used for invariants over action sequences.

An absent `draft` is modelled as `false`, because the three filters test `draft !== true`.
A collection is a `seq<Entry>`, and the directory result is a `map<string, Dir>`.

The model follows the code as written; in particular:

- `getAllCourseIndex` keeps an entry whose `id` contains `/_index` at any position.
- In `getCourseDirectories`, an alias is pushed only when it is non-empty. So a slug
  `cat/` adds nothing to `slugs` or `courses`.
- In `getCourseDirectories`, an entry is left out of `courses` when its slug
  contains `cat/_index` at any position.
- `increasePoints` needs a loaded user that also has a metadata object. A user
  without one is left unchanged.
- A bucket's `entry` is the last entry of its category, whatever that entry is
  (`LastEntryNeedNotBeIndex`). The model keeps this behaviour and does not select
  the index page instead.
- `getCourseDirectories` never reads `draft` (src/api/courses.ts:65-93), so draft
  entries are grouped, listed and can become a bucket's `entry` like any other.
- `setUser` and `removeUser` each write the two cells one after the other, so between
  the two writes the cells disagree (`SetUserMidStateDisagrees`). Only the weaker
  "signed in only with a user cached" holds at every write
  (`RunTraceKeepsSignedInHasUser`).
- `getCourseLessons(course)` excludes every id that contains `course/_index` at any
  position. The index page of a nested folder is returned as a lesson only when its path
  does not contain `course/_index`: `a/b/_index.md` is a lesson of `a`
  (`NestedIndexIsCourseLesson`), while `a/ba/_index.md` is not
  (`NestedIndexHoldingCourseMarkerExcluded`).

## Model

| member | source | states |
|---|---|---|
| Strings.ReplaceFirst | src/api/courses.ts:14 | `replace` with a string pattern and a literal replacement: a string without the pattern is returned unchanged; otherwise exactly the leftmost occurrence is replaced and the text around it is kept |
| Strings.ReplaceAtFirstOccurrence | src/api/courses.ts:14 | the leftmost occurrence alone determines the result of the replacement |
| Strings.Split | src/api/courses.ts:67 | `split('/')` always yields at least one piece and no piece holds a `/` |
| Strings.JoinSplit | src/api/courses.ts:67 | joining the pieces of a split with `/` gives back the original slug |
| Strings.SplitJoin | src/api/courses.ts:67 | splitting the join of `/`-free pieces gives back the pieces |
| Strings.SplitManyIffSep | src/api/courses.ts:67-69 | a slug has more than one piece exactly when it holds a `/` |
| Strings.TrailingSep | src/api/courses.ts:67-71 | `cat/` splits into `cat` and an empty last piece |
| Courses.WithCourseRootSlug | src/api/courses.ts:13-17 | the rewrite keeps `id` and `draft`; it replaces the leftmost `/_index` of the slug by `/` and leaves a slug without `/_index` as it was |
| Courses.IndexSlugPointsAtRoot | src/api/courses.ts:14 | the index page `intro/_index` gets the slug `intro/` |
| Courses.IndexSlugRewritesOnce | src/api/courses.ts:14 | only the first marker is rewritten: `a/_index/_index` becomes `a//_index` |
| Courses.AllCourseIndex | src/api/courses.ts:8-20 | as many results as live index pages; every result is live and has `/_index` in its id; every live index page appears, re-slugged |
| Courses.AllCourseIndexSound | src/api/courses.ts:9-17 | each result is the re-slugged copy of some live index page of the collection |
| Courses.AllCourseIndexConcat | src/api/courses.ts:8-20 | results follow collection order: the index pages of `a + b` are those of `a` followed by those of `b` |
| Courses.AllCourseIndexSingle | src/api/courses.ts:9-17 | a single entry yields its re-slugged self exactly when it is not a draft and its id contains `/_index` |
| Courses.CourseLessons | src/api/courses.ts:27-31 | every result is drawn from the collection, has an id starting with `course/`, is not a draft and has no `course/_index` in its id; every such entry is returned |
| Courses.CourseLessonsConcat | src/api/courses.ts:27-31 | the lessons of a course follow collection order |
| Courses.AllCollectionLessons | src/api/courses.ts:37-41 | every result is drawn from the collection, is live and has no `/_index` in its id; every such entry is returned |
| Courses.AllCollectionLessonsConcat | src/api/courses.ts:37-41 | all lessons follow collection order |
| Courses.IndexOrLesson | src/api/courses.ts:9-40 | a live entry passes exactly one of the index filter and the lesson filter; a draft passes neither |
| Courses.IndexAndLessonsPartitionLive | src/api/courses.ts:9-40 | over a whole collection, the live entries are split between the index list and the lesson list, each entry kept once, so the two lengths add up to the number of live entries |
| Courses.NestedIndexIsCourseLesson | src/api/courses.ts:28-30 | `a/b/_index.md` passes both the lesson filter for course `a` and the index filter |
| Courses.NestedIndexHoldingCourseMarkerExcluded | src/api/courses.ts:28-30 | `a/ba/_index.md` contains `a/_index`, so it fails the lesson filter for course `a`, while a live copy still passes the index filter |
| CourseDirectories.Visit | src/api/courses.ts:65-93 | one callback: a slug with a single piece changes nothing; otherwise the category key is added if absent, its `entry` becomes this entry, and no other category changes |
| CourseDirectories.VisitGrowsBucket | src/api/courses.ts:73-88 | one callback on the entry's own category: the bucket (or an empty one on first sight) gains the alias when it is non-empty, gains the entry when the alias is non-empty and the slug lacks `cat/_index`, and takes the entry as `entry` |
| CourseDirectories.LastOf | src/api/courses.ts:86-88 | the last entry of a category in enumeration order, or none exactly when the category has no entry |
| CourseDirectories.DirectoriesMatchExpected | src/api/courses.ts:62-95 | a category is present exactly when some entry with a multi-piece slug has it as first piece. Its `slugs` are the non-empty aliases of its entries, in order. Its `courses` are those of its entries with a non-empty alias whose slug lacks `cat/_index`, in order. Its `entry` is its last entry |
| CourseDirectories.BucketShape | src/api/courses.ts:80-88 | in every bucket, `entry` is set and is the last enumerated entry of the category, and `courses` is no longer than `slugs` |
| CourseDirectories.GroupedIffSlash | src/api/courses.ts:67-69 | an entry is grouped exactly when its slug holds a `/` |
| CourseDirectories.UngroupedEntryIgnored | src/api/courses.ts:69-92 | an entry whose slug has no `/` leaves the directories unchanged |
| CourseDirectories.TrailingSlashEntry | src/api/courses.ts:67-88 | a slug `cat/` creates or keeps the bucket of `cat` and sets its `entry`, but adds no alias and no course |
| CourseDirectories.LastEntryNeedNotBeIndex | src/api/courses.ts:80-88 | with `js/_index` then `js/intro`, `slugs` is `[_index, intro]`, `courses` is `[intro]`, and `entry` is the lesson `intro`, not the index page |
| ProfileStore.InitialIsSignedOut | src/stores/profile.ts:16-17 | the cells' defaults, used when storage holds nothing, are `isConnected` false and no cached user, and they agree |
| ProfileStore.SetUser | src/stores/profile.ts:33-37 | caches the given user and marks the session signed in, from any state |
| ProfileStore.RemoveUser | src/stores/profile.ts:27-31 | returns to the cells' defaults from any state |
| ProfileStore.IncreasePoints | src/stores/profile.ts:19-25 | with a metadata object, `xp` grows by `add`. Id, email, the other metadata keys and `isConnected` are kept. Without one, nothing changes |
| ProfileStore.UpdateUser | src/stores/profile.ts:39-46 | with a cached user, its metadata becomes `m` while id, email and `isConnected` are kept; without one, nothing changes |
| ProfileStore.ApplyUpsertReply | src/stores/profile.ts:39-56 | a failed save changes nothing; a saved row with no cached user changes nothing; a saved row with a cached user becomes its metadata while id, email and `isConnected` are kept |
| ProfileStore.UpsertReplyIdempotent | src/stores/profile.ts:39-56 | applying the same reply twice is applying it once |
| ProfileStore.UpsertSetsPoints | src/stores/profile.ts:39-56 | after a saved row is applied to a cached user, the user has points and they are the row's `xp` |
| ProfileStore.RemoveUserIdempotent | src/stores/profile.ts:27-31 | signing out twice is signing out once |
| ProfileStore.SetThenRemoveIsInitial | src/stores/profile.ts:16-37 | `setUser(u)` then `removeUser()` gives the cells' defaults |
| ProfileStore.IncreasePointsCompose | src/stores/profile.ts:19-25 | adding `a` then `b` points is adding `a + b` points |
| ProfileStore.IncreasePointsUndo | src/stores/profile.ts:19-25 | adding `add` then `-add` points restores the state |
| ProfileStore.UpdateUserIdempotent | src/stores/profile.ts:39-46 | replacing the metadata twice with the same object is replacing it once |
| ProfileStore.UpdateThenIncrease | src/stores/profile.ts:19-46 | after `updateUser(m)` on a loaded user, `increasePoints(add)` gives `m.xp + add` |
| ProfileStore.ApplyKeepsConsistent | src/stores/profile.ts:16-46 | every action keeps "signed in exactly when a user is cached" |
| ProfileStore.RunKeepsConsistent | src/stores/profile.ts:16-46 | any sequence of actions from a consistent state, such as the defaults or a pair these actions last stored, ends in a consistent state |
| ProfileStore.IncrementsAddUp | src/stores/profile.ts:19-25 | a run of `increasePoints` calls equals one call with their sum |
| ProfileStore.SetUserWritesKeepSignedInHasUser | src/stores/profile.ts:33-37 | writing the user and then the flag ends in `setUser`'s state, and from any state every intermediate state is signed in only with a user cached |
| ProfileStore.RemoveUserWritesKeepSignedInHasUser | src/stores/profile.ts:27-31 | clearing the flag and then the user ends in `removeUser`'s state, and from any state every intermediate state is signed in only with a user cached |
| ProfileStore.SetUserMidStateDisagrees | src/stores/profile.ts:33-35 | from the defaults, after the first write of `setUser` a user is cached while the flag still says signed out |
| ProfileStore.RemoveUserMidStateDisagrees | src/stores/profile.ts:27-29 | from a signed-in state, after the first write of `removeUser` the flag says signed out while the user is still cached |
| ProfileStore.WritesKeepSignedInHasUser | src/stores/profile.ts:19-46 | each action's writes end in the action's state, and from a state signed in only with a user cached, every intermediate state and the final one are too |
| ProfileStore.RunTraceKeepsSignedInHasUser | src/stores/profile.ts:16-46 | across any sequence of actions, every state after every single write is signed in only with a user cached |

## Left out

- `getCourseIndex` (src/api/courses.ts:48-60) is left out. It consists entirely of a
  slug lookup and a render, both calls into the site generator.
- The collection query itself is left out. Its result is the given `seq<Entry>` in
  enumeration order, and slugs are taken as given.
- The callback of `getCourseDirectories` returns true or false. That value only
  filters a list the code discards, so it is not modelled.
- The directory result is a `map`, so the insertion order of the JavaScript
  object's keys is not modelled.
- Category names that collide with inherited object properties (`constructor`,
  `__proto__`, …) are not modelled. The code would find an existing value there
  instead of a fresh bucket; the model treats every category name as an ordinary key.
- `src/stores/courses.ts` (the learning-record store) is not part of this model. Its
  operations are thin wrappers over remote database queries. Their uniqueness and
  upsert semantics live in the database, and `resetCourse` is a stub.
- `upsertProfile` (src/stores/profile.ts:48-60): the network call and its error
  capture are left out. Only its local effect is modelled, in `ApplyUpsertReply`.
- The JSON persistence of the two cells (src/stores/profile.ts:12-17) is library
  code and is left out. On load each cell takes its stored value, and the defaults
  `Initial` are used only when storage holds nothing, so `Initial` is a fresh browser's
  state. `RunKeepsConsistent` and `RunTraceKeepsSignedInHasUser` start from any state
  meeting their precondition, which covers a restored pair, because that pair was last
  written by these same actions.
- ProfileStore.IncreasePoints: models `xp` as an unbounded integer. It does not model
  JavaScript numbers: floating point, and `NaN` when `xp` is absent.
- ProfileStore.IncreasePoints: modelled as a plain value update. The code mutates the
  cached object in place without calling the store's setter, so the new points are
  neither written to storage nor announced to subscribers. The model does not
  distinguish that from a normal update.
- ProfileStore.ApplyKeepsConsistent: "signed in exactly when a user is cached" is
  proved between actions, not between the two writes of `setUser` or `removeUser`,
  where it does not hold. Subscribers notified after the first write can see the
  disagreement. The weaker invariant that does hold at every write is proved in
  `RunTraceKeepsSignedInHasUser`.
- The user's metadata is modelled as `xp` plus a map of other keys, and the user as
  id, email and metadata. Other user fields are not modelled.
- `astro.config.mjs` is build configuration and is left out.
- Courses.WithCourseRootSlug: returns a re-slugged copy. The code assigns the new slug to the entry object the collection query returned (src/api/courses.ts:15). If the query hands the same objects to a later call, that call sees the rewritten slug: `js/` instead of `js/_index`, which `getCourseDirectories` would then group with an empty alias. The model treats every query as reading the unchanged collection.
- Strings.ReplaceFirst: inserts the replacement literally. JavaScript's `replace` also expands `$&`, `$$`, `` $` `` and `$'` in the replacement string; the only replacement the code uses is `/`, which holds no `$`, so this expansion is not modelled.

=== FILE: courses.dfy ===
/** The content index over one collection: which entries are course index pages,
    which are lessons of a course, which are lessons at all, and how an index
    page's slug is rewritten to point at the course root. */
module Courses {
  import opened Strings
  import opened Seqs

  /** One entry of a content collection: its file identifier, its slug and its draft flag.
      An absent `draft` is `false`, since the filters only test `draft !== true`. */
  datatype Entry = Entry(id: string, slug: string, draft: bool)

  /** The marker that identifies a course index page. */
  const IndexMarker: string := "/_index"

  /** The filter of `getAllCourseIndex`. */
  predicate IsCourseIndex(e: Entry) {
    !e.draft && Contains(e.id, IndexMarker)
  }

  /** The filter of `getCourseLessons(course)`. */
  predicate IsCourseLesson(course: string, e: Entry) {
    StartsWith(e.id, course + [Sep]) && !e.draft && !Contains(e.id, course + IndexMarker)
  }

  /** The filter of `getAllCollectionLessons`. */
  predicate IsCollectionLesson(e: Entry) {
    !e.draft && !Contains(e.id, IndexMarker)
  }

  /** An entry that is not a draft. */
  predicate IsLive(e: Entry) {
    !e.draft
  }

  /** The slug rewrite of `getAllCourseIndex`: the leftmost `/_index` of the slug becomes `/`,
      and nothing else about the entry changes. */
  function WithCourseRootSlug(e: Entry): (r: Entry)
    ensures r.id == e.id && r.draft == e.draft
    ensures !Contains(e.slug, IndexMarker) ==> r == e
    ensures Contains(e.slug, IndexMarker) ==>
      exists i: nat :: FirstOccurrence(e.slug, IndexMarker, i)
        && r.slug == e.slug[..i] + [Sep] + e.slug[i + |IndexMarker|..]
  {
    e.(slug := ReplaceFirst(e.slug, IndexMarker, [Sep]))
  }

  /** The index page `intro/_index` is re-slugged to the course root `intro/`.
      The literal is passed in through the precondition so that the verifier does not unroll
      the string functions on it. */
  lemma IndexSlugPointsAtRoot(e: Entry)
    requires e.slug == "intro/_index"
    ensures WithCourseRootSlug(e).slug == "intro/"
  {
    forall j: nat | j < 5 ensures !OccursAt(e.slug, IndexMarker, j) {
      assert e.slug[j] != Sep;
    }
    ReplaceAtFirstOccurrence(e.slug, IndexMarker, [Sep], 5);
  }

  /** Only the leftmost marker is rewritten: `a/_index/_index` becomes `a//_index`.
      The literal is passed in through the precondition so that the verifier does not unroll
      the string functions on it. */
  lemma IndexSlugRewritesOnce(slug: string)
    requires slug == "a/_index/_index"
    ensures ReplaceFirst(slug, IndexMarker, [Sep]) == "a//_index"
  {
    assert slug[..1] == "a" && slug[1..8] == IndexMarker && slug[8..] == IndexMarker;
    assert !OccursAt(slug, IndexMarker, 0) by {
      assert slug[0] != Sep;
    }
    ReplaceAtFirstOccurrence(slug, IndexMarker, [Sep], 1);
  }

  /** `getAllCourseIndex`: the live index pages of the collection, each with its slug
      rewritten to the course root. */
  function AllCourseIndex(es: seq<Entry>): (r: seq<Entry>)
    ensures |r| == |Filter(es, IsCourseIndex)|
    ensures forall i :: 0 <= i < |r| ==> !r[i].draft && Contains(r[i].id, IndexMarker)
    ensures forall j :: 0 <= j < |es| && IsCourseIndex(es[j]) ==> WithCourseRootSlug(es[j]) in r
  {
    MapSeq(Filter(es, IsCourseIndex), WithCourseRootSlug)
  }

  /** Each element `getAllCourseIndex` returns is a live index page of the collection,
      re-slugged. */
  lemma AllCourseIndexSound(es: seq<Entry>, i: int)
    requires 0 <= i < |AllCourseIndex(es)|
    ensures exists j :: 0 <= j < |es| && IsCourseIndex(es[j]) && AllCourseIndex(es)[i] == WithCourseRootSlug(es[j])
  {
    var kept := Filter(es, IsCourseIndex);
    assert kept[i] in multiset(kept);
    assert kept[i] in es;
    var j :| 0 <= j < |es| && es[j] == kept[i];
    assert AllCourseIndex(es)[i] == WithCourseRootSlug(es[j]);
  }

  /** `getCourseLessons(course)`: the live entries under `course/` other than its index page. */
  function CourseLessons(es: seq<Entry>, course: string): (r: seq<Entry>)
    ensures multiset(r) <= multiset(es)
    ensures forall i :: 0 <= i < |r| ==>
      && StartsWith(r[i].id, course + "/")
      && !r[i].draft
      && !Contains(r[i].id, course + "/_index")
    ensures forall j :: 0 <= j < |es| && IsCourseLesson(course, es[j]) ==> es[j] in r
  {
    Filter(es, e => IsCourseLesson(course, e))
  }

  /** `getAllCollectionLessons`: the live entries that are not index pages. */
  function AllCollectionLessons(es: seq<Entry>): (r: seq<Entry>)
    ensures multiset(r) <= multiset(es)
    ensures forall i :: 0 <= i < |r| ==> !r[i].draft && !Contains(r[i].id, "/_index")
    ensures forall j :: 0 <= j < |es| && IsCollectionLesson(es[j]) ==> es[j] in r
  {
    Filter(es, IsCollectionLesson)
  }

  /** The index pages of two collections enumerated one after the other are those of the
      first followed by those of the second; with `AllCourseIndexSingle` this pins the
      result down entry by entry, in collection order. */
  lemma AllCourseIndexConcat(a: seq<Entry>, b: seq<Entry>)
    ensures AllCourseIndex(a + b) == AllCourseIndex(a) + AllCourseIndex(b)
  {
    FilterConcat(a, b, IsCourseIndex);
  }

  /** A single entry contributes itself, re-slugged, exactly when it is a live index page. */
  lemma AllCourseIndexSingle(e: Entry)
    ensures AllCourseIndex([e]) == if IsCourseIndex(e) then [WithCourseRootSlug(e)] else []
  {
    assert [e][..0] == [];
  }

  /** The lessons of one course follow collection order as well; what a single entry
      contributes is fixed by the contract of `CourseLessons`. */
  lemma CourseLessonsConcat(a: seq<Entry>, b: seq<Entry>, course: string)
    ensures CourseLessons(a + b, course) == CourseLessons(a, course) + CourseLessons(b, course)
  {
    FilterConcat(a, b, e => IsCourseLesson(course, e));
  }

  /** All lessons of the collection follow collection order as well. */
  lemma AllCollectionLessonsConcat(a: seq<Entry>, b: seq<Entry>)
    ensures AllCollectionLessons(a + b) == AllCollectionLessons(a) + AllCollectionLessons(b)
  {
    FilterConcat(a, b, IsCollectionLesson);
  }

  /** Every live entry is either an index page or a lesson, never both; a draft is neither. */
  lemma IndexOrLesson(e: Entry)
    ensures !e.draft ==> (IsCourseIndex(e) <==> !IsCollectionLesson(e))
    ensures e.draft ==> !IsCourseIndex(e) && !IsCollectionLesson(e)
  {
  }

  /** Over a whole collection, the index filter and the lesson filter split the live entries
      between them: each live entry lands in exactly one of the two lists. */
  lemma {:induction false} IndexAndLessonsPartitionLive(es: seq<Entry>)
    ensures multiset(Filter(es, IsLive)) == multiset(Filter(es, IsCourseIndex)) + multiset(AllCollectionLessons(es))
    ensures |Filter(es, IsLive)| == |AllCourseIndex(es)| + |AllCollectionLessons(es)|
  {
    FilterPartition(es, IsLive, IsCourseIndex, IsCollectionLesson);
  }

  /** The lesson filter excludes every id holding `course/_index` at any position, so a
      nested folder's index page whose path does not hold it, such as `a/b/_index.md` for
      course `a`, is both a lesson of `a` and a course index page. */
  lemma NestedIndexIsCourseLesson(e: Entry)
    requires e.id == "a/b/_index.md" && !e.draft
    ensures IsCourseLesson("a", e) && IsCourseIndex(e)
  {
    assert OccursAt(e.id, IndexMarker, 3);
    var m := "a" + IndexMarker;
    assert m[0] == 'a' && m[2] == '_';
    forall i: nat | i <= |e.id| ensures !OccursAt(e.id, m, i) {
      if i + |m| <= |e.id| {
        var w := e.id[i..i + |m|];
        assert w[0] == e.id[i] && w[2] == e.id[i + 2];
        assert e.id[i] != 'a' || e.id[i + 2] != '_';
      }
    }
  }

  /** A nested index page whose path holds `course/_index` is not a lesson of the course:
      `a/ba/_index.md` holds `a/_index` at position 3, so it is excluded from the lessons
      of `a` while remaining a course index page. */
  lemma NestedIndexHoldingCourseMarkerExcluded(e: Entry)
    requires e.id == "a/ba/_index.md"
    ensures !IsCourseLesson("a", e)
    ensures !e.draft ==> IsCourseIndex(e)
  {
    assert OccursAt(e.id, "a" + IndexMarker, 3);
    assert OccursAt(e.id, IndexMarker, 4);
  }

}

=== FILE: directories.dfy ===
/** `getCourseDirectories`: one pass over a collection that groups its entries by the
    first piece of their slug (the category). */
module CourseDirectories {
  import opened Wrappers
  import opened Strings
  import opened Seqs
  import opened Courses

  /** One category bucket: the aliases seen, the non-index entries, and the last entry seen. */
  datatype Dir = Dir(slugs: seq<string>, courses: seq<Entry>, entry: Option<Entry>)

  /** The bucket a category starts with on first sight. */
  const EmptyDir: Dir := Dir([], [], None)

  /** The category of a slug: its first piece. */
  function Category(slug: string): string {
    Split(slug)[0]
  }

  /** The alias of a slug: its last piece. */
  function Alias(slug: string): string {
    var parts := Split(slug);
    parts[|parts| - 1]
  }

  /** The entry takes part in grouping: its slug has more than one piece. */
  predicate Grouped(e: Entry) {
    |Split(e.slug)| > 1
  }

  /** The entry is grouped under category `cat`. */
  predicate InCategory(cat: string, e: Entry) {
    Grouped(e) && Category(e.slug) == cat
  }

  /** One step of the pass: the callback given to the collection query, applied to `e`. */
  function Visit(dirs: map<string, Dir>, e: Entry): (r: map<string, Dir>)
    ensures !Grouped(e) ==> r == dirs
    ensures Grouped(e) ==> r.Keys == dirs.Keys + {Category(e.slug)}
    ensures Grouped(e) ==> r[Category(e.slug)].entry == Some(e)
    ensures forall cat :: cat in dirs && !InCategory(cat, e) ==> cat in r && r[cat] == dirs[cat]
  {
    var parts := Split(e.slug);
    if |parts| <= 1 then dirs
    else
      var cat := parts[0];
      var alias := parts[|parts| - 1];
      var d := if cat in dirs then dirs[cat] else EmptyDir;
      var d' :=
        if alias == "" then d
        else if Contains(e.slug, cat + IndexMarker) then d.(slugs := d.slugs + [alias])
        else d.(slugs := d.slugs + [alias], courses := d.courses + [e]);
      dirs[cat := d'.(entry := Some(e))]
  }

  /** The whole pass over the collection, in enumeration order. */
  function Directories(es: seq<Entry>): map<string, Dir>
    decreases |es|
  {
    if |es| == 0 then map[]
    else Visit(Directories(es[..|es| - 1]), es[|es| - 1])
  }

  // A reference description, category by category, of what the pass builds.

  /** The entry puts its alias into the `slugs` of `cat`. */
  predicate ListsSlug(cat: string, e: Entry) {
    InCategory(cat, e) && Alias(e.slug) != ""
  }

  /** The entry goes into the `courses` of `cat`. */
  predicate ListsCourse(cat: string, e: Entry) {
    ListsSlug(cat, e) && !Contains(e.slug, cat + IndexMarker)
  }

  /** `Alias` of the entry's slug, as a function value for `MapSeq`. */
  function AliasOf(e: Entry): string {
    Alias(e.slug)
  }

  /** The aliases of the entries of `cat` with a non-empty alias, in enumeration order. */
  function SlugsOf(es: seq<Entry>, cat: string): seq<string> {
    MapSeq(Filter(es, e => ListsSlug(cat, e)), AliasOf)
  }

  /** The entries of `cat` with a non-empty alias that are not its index page, in order. */
  function CoursesOf(es: seq<Entry>, cat: string): seq<Entry> {
    Filter(es, e => ListsCourse(cat, e))
  }

  /** Position `i` holds the last entry of `cat` in the collection. */
  predicate IsLastOf(es: seq<Entry>, cat: string, i: int) {
    0 <= i < |es| && InCategory(cat, es[i]) && forall j :: i < j < |es| ==> !InCategory(cat, es[j])
  }

  /** The last entry of `cat` in the collection, if there is one. */
  function LastOf(es: seq<Entry>, cat: string): (r: Option<Entry>)
    ensures r.None? <==> forall j :: 0 <= j < |es| ==> !InCategory(cat, es[j])
    ensures r.Some? ==> exists i :: IsLastOf(es, cat, i) && r.value == es[i]
    decreases |es|
  {
    if |es| == 0 then None
    else if InCategory(cat, es[|es| - 1]) then
      assert IsLastOf(es, cat, |es| - 1);
      Some(es[|es| - 1])
    else
      var pre := es[..|es| - 1];
      var r := LastOf(pre, cat);
      assert forall j :: 0 <= j < |pre| ==> pre[j] == es[j];
      if r.Some? then
        var i :| IsLastOf(pre, cat, i) && r.value == pre[i];
        assert IsLastOf(es, cat, i);
        r
      else r
  }

  /** What the pass should hold for `cat`, stated one category at a time. */
  function ExpectedDir(es: seq<Entry>, cat: string): Dir {
    Dir(SlugsOf(es, cat), CoursesOf(es, cat), LastOf(es, cat))
  }

  /** The pass agrees with the category-by-category description: a category is present
      exactly when some entry is grouped under it, and its bucket holds exactly the
      aliases, courses and last entry the description gives. */
  lemma {:induction false} DirectoriesMatchExpected(es: seq<Entry>)
    ensures forall cat :: cat in Directories(es) <==> exists i :: 0 <= i < |es| && InCategory(cat, es[i])
    ensures forall cat :: cat in Directories(es) ==> Directories(es)[cat] == ExpectedDir(es, cat)
    decreases |es|
  {
    if |es| > 0 {
      var pre := es[..|es| - 1];
      var e := es[|es| - 1];
      assert es == pre + [e];
      DirectoriesMatchExpected(pre);
      var prev := Directories(pre);
      forall cat
        ensures cat in Directories(es) <==> exists i :: 0 <= i < |es| && InCategory(cat, es[i])
        ensures cat in Directories(es) ==> Directories(es)[cat] == ExpectedDir(es, cat)
      {
        VisitMatchesExpected(pre, e, cat);
      }
    }
  }

  /** Every bucket the pass builds has an entry, namely the last entry of its category
      (whether or not that entry is the category's index page), and no more courses than aliases. */
  lemma BucketShape(es: seq<Entry>, cat: string)
    requires cat in Directories(es)
    ensures |Directories(es)[cat].courses| <= |Directories(es)[cat].slugs|
    ensures Directories(es)[cat].entry.Some?
    ensures exists i :: IsLastOf(es, cat, i) && Directories(es)[cat].entry == Some(es[i])
  {
    DirectoriesMatchExpected(es);
    FilterStrongerIsShorter(es, e => ListsSlug(cat, e), e => ListsCourse(cat, e));
  }

  /** An entry takes part in grouping exactly when its slug holds a `/`. */
  lemma GroupedIffSlash(e: Entry)
    ensures Grouped(e) <==> Sep in e.slug
  {
    SplitManyIffSep(e.slug);
  }

  /** An entry whose slug has no `/` leaves the directories exactly as they were. */
  lemma UngroupedEntryIgnored(es: seq<Entry>, e: Entry)
    requires Sep !in e.slug
    ensures Directories(es + [e]) == Directories(es)
  {
    GroupedIffSlash(e);
    assert (es + [e])[..|es + [e]| - 1] == es;
  }

  /** A slug `cat/` splits into `cat` and an empty alias: the visit creates or keeps the
      bucket of `cat` and makes the entry its `entry`, but adds no alias and no course. */
  lemma TrailingSlashEntry(dirs: map<string, Dir>, e: Entry, cat: string)
    requires Sep !in cat
    requires e.slug == cat + [Sep]
    ensures cat in Visit(dirs, e)
    ensures var d := if cat in dirs then dirs[cat] else EmptyDir;
      Visit(dirs, e)[cat] == d.(entry := Some(e))
  {
    TrailingSep(cat);
  }

  /** Last write wins: when a lesson of `js` is enumerated after its index page, the bucket's
      `entry` is the lesson, not the index page; the index page still adds its alias `_index`
      to `slugs` but not itself to `courses`.
      The literal is passed in through the precondition so that the verifier does not unroll
      the string functions on it. */
  lemma LastEntryNeedNotBeIndex(index: Entry, intro: Entry)
    requires index.slug == "js/_index" && intro.slug == "js/intro"
    ensures "js" in Directories([index, intro])
    ensures Directories([index, intro])["js"] == Dir(["_index", "intro"], [intro], Some(intro))
  {
    JsIndexSlug(index);
    JsIntroSlug(intro);
    var none: seq<Entry> := [];
    DirectoriesSnoc(none, index);
    assert none + [index] == [index];
    DirectoriesSnoc([index], intro);
    assert [index] + [intro] == [index, intro];
    VisitGrowsBucket(map[], index, "js");
    VisitGrowsBucket(Directories([index]), intro, "js");
  }

  /** How the slug `js/_index` is grouped (the literal is a precondition, as above). */
  lemma JsIndexSlug(index: Entry)
    requires index.slug == "js/_index"
    ensures InCategory("js", index) && ListsSlug("js", index) && !ListsCourse("js", index)
    ensures Alias(index.slug) == "_index"
  {
    SplitWithoutSep("_index");
    SplitAfterPiece("js", "_index");
    assert "js" + [Sep] + "_index" == index.slug;
    assert OccursAt(index.slug, "js" + IndexMarker, 0);
  }

  /** How the slug `js/intro` is grouped (the literal is a precondition, as above). */
  lemma JsIntroSlug(intro: Entry)
    requires intro.slug == "js/intro"
    ensures InCategory("js", intro) && ListsCourse("js", intro)
    ensures Alias(intro.slug) == "intro"
  {
    SplitWithoutSep("intro");
    SplitAfterPiece("js", "intro");
    assert "js" + [Sep] + "intro" == intro.slug;
  }

  /** The pass over one entry more is one visit more. */
  lemma DirectoriesSnoc(es: seq<Entry>, e: Entry)
    ensures Directories(es + [e]) == Visit(Directories(es), e)
  {
    assert (es + [e])[..|es|] == es;
  }

  /** The induction step of `DirectoriesMatchExpected` for one category. */
  lemma {:induction false} VisitMatchesExpected(pre: seq<Entry>, e: Entry, cat: string)
    requires forall c :: c in Directories(pre) <==> exists i :: 0 <= i < |pre| && InCategory(c, pre[i])
    requires forall c :: c in Directories(pre) ==> Directories(pre)[c] == ExpectedDir(pre, c)
    ensures cat in Directories(pre + [e]) <==> exists i :: 0 <= i < |pre + [e]| && InCategory(cat, (pre + [e])[i])
    ensures cat in Directories(pre + [e]) ==> Directories(pre + [e])[cat] == ExpectedDir(pre + [e], cat)
  {
    var es := pre + [e];
    assert es[..|es| - 1] == pre;
    var prev := Directories(pre);
    assert Directories(es) == Visit(prev, e);
    assert forall i :: 0 <= i < |pre| ==> es[i] == pre[i];
    if InCategory(cat, e) {
      assert InCategory(cat, es[|pre|]);
      VisitOwnCategory(prev, pre, e, cat);
    } else {
      ExpectedDirOtherEntry(pre, e, cat);
    }
  }

  /** The entry visited is grouped under `cat`: its bucket grows by what the description adds. */
  lemma VisitOwnCategory(prev: map<string, Dir>, pre: seq<Entry>, e: Entry, cat: string)
    requires InCategory(cat, e)
    requires cat in prev <==> exists i :: 0 <= i < |pre| && InCategory(cat, pre[i])
    requires cat in prev ==> prev[cat] == ExpectedDir(pre, cat)
    ensures cat in Visit(prev, e)
    ensures Visit(prev, e)[cat] == ExpectedDir(pre + [e], cat)
  {
    var d := if cat in prev then prev[cat] else EmptyDir;
    if cat !in prev {
      FilterNone(pre, e' => ListsSlug(cat, e'));
      FilterNone(pre, e' => ListsCourse(cat, e'));
    }
    assert d.slugs == SlugsOf(pre, cat) && d.courses == CoursesOf(pre, cat);
    VisitGrowsBucket(prev, e, cat);
    ExpectedDirOwnEntry(pre, e, cat);
  }

  /** What one visit does to the bucket of the entry's own category. */
  lemma VisitGrowsBucket(prev: map<string, Dir>, e: Entry, cat: string)
    requires InCategory(cat, e)
    ensures var d := if cat in prev then prev[cat] else EmptyDir;
      Visit(prev, e)[cat] ==
        Dir(d.slugs + (if ListsSlug(cat, e) then [Alias(e.slug)] else []),
            d.courses + (if ListsCourse(cat, e) then [e] else []),
            Some(e))
  {
  }

  /** The description of `cat` after an entry of `cat`. */
  lemma {:induction false} ExpectedDirOwnEntry(pre: seq<Entry>, e: Entry, cat: string)
    requires InCategory(cat, e)
    ensures ExpectedDir(pre + [e], cat) ==
      Dir(SlugsOf(pre, cat) + (if ListsSlug(cat, e) then [Alias(e.slug)] else []),
          CoursesOf(pre, cat) + (if ListsCourse(cat, e) then [e] else []),
          Some(e))
  {
    var es := pre + [e];
    assert es[..|es| - 1] == pre;
    FilterSnoc(pre, e, e' => ListsSlug(cat, e'));
    FilterSnoc(pre, e, e' => ListsCourse(cat, e'));
    MapSeqSnoc(Filter(pre, e' => ListsSlug(cat, e')), e, AliasOf);
  }

  /** The description of `cat` does not move past an entry of another category. */
  lemma ExpectedDirOtherEntry(pre: seq<Entry>, e: Entry, cat: string)
    requires !InCategory(cat, e)
    ensures ExpectedDir(pre + [e], cat) == ExpectedDir(pre, cat)
  {
    var es := pre + [e];
    assert es[..|es| - 1] == pre;
    FilterSnoc(pre, e, e' => ListsSlug(cat, e'));
    FilterSnoc(pre, e, e' => ListsCourse(cat, e'));
  }
}

=== FILE: profile.dfy ===
/** The profile store: two persisted cells, whether someone is signed in and the cached
    user, changed only through four synchronous actions. */
module ProfileStore {
  import opened Wrappers

  /** The user's metadata object: the experience points and whatever other keys it holds. */
  datatype Metadata = Metadata(xp: int, fields: map<string, string>)

  /** The cached user: its identity and its optional metadata object. */
  datatype User = User(id: string, email: string, metadata: Option<Metadata>)

  /** The two cells of the store. */
  datatype Session = Session(isConnected: bool, profile: Option<User>)

  /** The cells' defaults: nobody signed in, no cached user. */
  const Initial: Session := Session(false, None)

  /** A cached user with a metadata object is loaded: the case in which points can move. */
  predicate HasPoints(s: Session) {
    s.profile.Some? && s.profile.value.metadata.Some?
  }

  /** The points of the loaded user. */
  function Xp(s: Session): int
    requires HasPoints(s)
  {
    s.profile.value.metadata.value.xp
  }

  /** The two cells agree: someone is signed in exactly when a user is cached. */
  predicate Consistent(s: Session) {
    s.isConnected <==> s.profile.Some?
  }

  /** `setUser(u)`: cache `u` and mark the session signed in, whatever came before. */
  function SetUser(s: Session, u: User): (r: Session)
    ensures r.profile == Some(u) && r.isConnected
    ensures Consistent(r)
  {
    Session(true, Some(u))
  }

  /** `removeUser()`: sign out and drop the cached user, from any state. */
  function RemoveUser(s: Session): (r: Session)
    ensures r == Initial
    ensures Consistent(r)
  {
    Session(false, None)
  }

  /** `increasePoints(add)`: add to the loaded user's points; no other field of the user and
      neither cell's presence changes, and without a metadata object nothing changes. */
  function IncreasePoints(s: Session, add: int): (r: Session)
    ensures r.isConnected == s.isConnected
    ensures !HasPoints(s) ==> r == s
    ensures HasPoints(s) ==> HasPoints(r) && Xp(r) == Xp(s) + add
    ensures HasPoints(s) ==>
      && r.profile.value.id == s.profile.value.id
      && r.profile.value.email == s.profile.value.email
      && r.profile.value.metadata.value.fields == s.profile.value.metadata.value.fields
  {
    match s.profile
    case Some(User(id, email, Some(m))) =>
      s.(profile := Some(User(id, email, Some(m.(xp := m.xp + add)))))
    case _ => s
  }

  /** `updateUser(m)`: replace the loaded user's metadata object by `m`, keeping its identity
      and the signed-in cell; without a cached user nothing changes. */
  function UpdateUser(s: Session, m: Metadata): (r: Session)
    ensures r.isConnected == s.isConnected
    ensures s.profile.None? ==> r == s
    ensures s.profile.Some? ==>
      && r.profile.Some?
      && r.profile.value.id == s.profile.value.id
      && r.profile.value.email == s.profile.value.email
      && r.profile.value.metadata == Some(m)
  {
    match s.profile
    case None => s
    case Some(u) => s.(profile := Some(u.(metadata := Some(m))))
  }

  /** The local effect of `upsertProfile`: a saved row becomes the cached user's metadata,
      while a failed save, or a save with no user cached, leaves the store alone. */
  function ApplyUpsertReply(s: Session, reply: Result<Metadata, string>): (r: Session)
    ensures reply.Failure? ==> r == s
    ensures s.profile.None? ==> r == s
    ensures reply.Success? && s.profile.Some? ==>
      && r.profile.Some?
      && r.profile.value.metadata == Some(reply.value)
      && r.profile.value.id == s.profile.value.id
      && r.profile.value.email == s.profile.value.email
    ensures r.isConnected == s.isConnected
  {
    match reply
    case Success(row) => UpdateUser(s, row)
    case Failure(_) => s
  }

  /** Applying the same reply twice is applying it once. */
  lemma UpsertReplyIdempotent(s: Session, reply: Result<Metadata, string>)
    ensures ApplyUpsertReply(ApplyUpsertReply(s, reply), reply) == ApplyUpsertReply(s, reply)
  {
  }

  /** After a saved row is applied to a loaded user, the cached points are the row's. */
  lemma UpsertSetsPoints(s: Session, row: Metadata)
    requires s.profile.Some?
    ensures HasPoints(ApplyUpsertReply(s, Success(row)))
    ensures Xp(ApplyUpsertReply(s, Success(row))) == row.xp
  {
  }

  /** The cells' defaults, used when storage holds nothing, are signed out with no cached
      user, and they agree. */
  lemma InitialIsSignedOut()
    ensures !Initial.isConnected && Initial.profile.None?
    ensures Consistent(Initial)
  {
  }

  /** `removeUser` is idempotent. */
  lemma RemoveUserIdempotent(s: Session)
    ensures RemoveUser(RemoveUser(s)) == RemoveUser(s)
  {
  }

  /** Signing in and then out returns to the cells' defaults, whatever the state before. */
  lemma SetThenRemoveIsInitial(s: Session, u: User)
    ensures RemoveUser(SetUser(s, u)) == Initial
  {
  }

  /** Adding `a` then `b` points is adding `a + b` points, from any state. */
  lemma IncreasePointsCompose(s: Session, a: int, b: int)
    ensures IncreasePoints(IncreasePoints(s, a), b) == IncreasePoints(s, a + b)
  {
  }

  /** Adding `add` points and then `-add` points restores the state. */
  lemma IncreasePointsUndo(s: Session, add: int)
    ensures IncreasePoints(IncreasePoints(s, add), -add) == s
  {
  }

  /** Replacing the metadata twice with the same object is replacing it once. */
  lemma UpdateUserIdempotent(s: Session, m: Metadata)
    ensures UpdateUser(UpdateUser(s, m), m) == UpdateUser(s, m)
  {
  }

  /** After replacing the metadata of a loaded user, points count up from the new object. */
  lemma UpdateThenIncrease(s: Session, m: Metadata, add: int)
    requires s.profile.Some?
    ensures HasPoints(IncreasePoints(UpdateUser(s, m), add))
    ensures Xp(IncreasePoints(UpdateUser(s, m), add)) == m.xp + add
  {
  }

  /** The actions of the store, as values. */
  datatype Action =
    | SetUserAction(user: User)
    | RemoveUserAction
    | IncreasePointsAction(add: int)
    | UpdateUserAction(metadata: Metadata)

  /** Dispatch one action. */
  function Apply(s: Session, a: Action): Session {
    match a
    case SetUserAction(u) => SetUser(s, u)
    case RemoveUserAction => RemoveUser(s)
    case IncreasePointsAction(add) => IncreasePoints(s, add)
    case UpdateUserAction(m) => UpdateUser(s, m)
  }

  /** Run actions in order. */
  function Run(s: Session, actions: seq<Action>): Session
    decreases |actions|
  {
    if |actions| == 0 then s
    else Run(Apply(s, actions[0]), actions[1..])
  }

  /** Every action keeps the two cells in agreement. */
  lemma ApplyKeepsConsistent(s: Session, a: Action)
    requires Consistent(s)
    ensures Consistent(Apply(s, a))
  {
  }

  /** Whatever sequence of actions runs from a consistent state (the defaults, or a pair
      these actions last stored), the signed-in cell says whether a user is cached. */
  lemma {:induction false} RunKeepsConsistent(s: Session, actions: seq<Action>)
    requires Consistent(s)
    ensures Consistent(Run(s, actions))
    decreases |actions|
  {
    if |actions| > 0 {
      ApplyKeepsConsistent(s, actions[0]);
      RunKeepsConsistent(Apply(s, actions[0]), actions[1..]);
    }
  }

  /** The sum of a sequence of point increments. */
  function Sum(adds: seq<int>): int
    decreases |adds|
  {
    if |adds| == 0 then 0 else adds[0] + Sum(adds[1..])
  }

  /** Point increments only, one per element of `adds`. */
  function Increments(adds: seq<int>): (r: seq<Action>)
    ensures |r| == |adds|
    ensures forall i :: 0 <= i < |adds| ==> r[i] == IncreasePointsAction(adds[i])
    decreases |adds|
  {
    if |adds| == 0 then [] else [IncreasePointsAction(adds[0])] + Increments(adds[1..])
  }

  /** A run of point increments adds up: it is one increment by their sum. */
  lemma {:induction false} IncrementsAddUp(s: Session, adds: seq<int>)
    ensures Run(s, Increments(adds)) == IncreasePoints(s, Sum(adds))
    decreases |adds|
  {
    if |adds| > 0 {
      var rest := Increments(adds);
      assert rest[1..] == Increments(adds[1..]);
      IncrementsAddUp(IncreasePoints(s, adds[0]), adds[1..]);
      IncreasePointsCompose(s, adds[0], Sum(adds[1..]));
    }
  }

  // Each action writes the two cells one after the other, and subscribers of the first
  // cell are told before the second is written.

  /** One write to one of the two cells. */
  datatype Write = SetConnected(connected: bool) | SetProfile(user: Option<User>)

  /** The store after one write. */
  function Commit(s: Session, w: Write): Session {
    match w
    case SetConnected(b) => s.(isConnected := b)
    case SetProfile(p) => s.(profile := p)
  }

  /** The store after each write of `ws`, in order. */
  function Trace(s: Session, ws: seq<Write>): (t: seq<Session>)
    ensures |t| == |ws|
    decreases |ws|
  {
    if |ws| == 0 then []
    else
      var s' := Commit(s, ws[0]);
      [s'] + Trace(s', ws[1..])
  }

  /** `setUser` writes the user first, then the signed-in flag. */
  function SetUserWrites(u: User): seq<Write> {
    [SetProfile(Some(u)), SetConnected(true)]
  }

  /** `removeUser` clears the signed-in flag first, then the user. */
  const RemoveUserWrites: seq<Write> := [SetConnected(false), SetProfile(None)]

  /** The weaker agreement the write order keeps: signed in only with a user cached. */
  predicate SignedInHasUser(s: Session) {
    s.isConnected ==> s.profile.Some?
  }

  /** The writes of `setUser` end in `SetUser`, and every state seen along the way,
      from any starting state, is signed in only with a user cached. */
  lemma SetUserWritesKeepSignedInHasUser(s: Session, u: User)
    ensures var t := Trace(s, SetUserWrites(u));
      |t| == 2 && t[1] == SetUser(s, u) && forall i :: 0 <= i < |t| ==> SignedInHasUser(t[i])
  {
    var ws := SetUserWrites(u);
    assert ws[1..] == [SetConnected(true)];
  }

  /** The writes of `removeUser` end in `RemoveUser`, and every state seen along the way,
      from any starting state, is signed in only with a user cached. */
  lemma RemoveUserWritesKeepSignedInHasUser(s: Session)
    ensures var t := Trace(s, RemoveUserWrites);
      |t| == 2 && t[1] == RemoveUser(s) && forall i :: 0 <= i < |t| ==> SignedInHasUser(t[i])
  {
    assert RemoveUserWrites[1..] == [SetProfile(None)];
  }

  /** Between its two writes, `setUser` from the defaults shows a cached user while
      the flag still says signed out: full agreement holds only between actions. */
  lemma SetUserMidStateDisagrees(u: User)
    ensures !Consistent(Trace(Initial, SetUserWrites(u))[0])
  {
  }

  /** Likewise `removeUser` from a signed-in state shows the flag cleared while the user
      is still cached. */
  lemma RemoveUserMidStateDisagrees(u: User)
    ensures !Consistent(Trace(SetUser(Initial, u), RemoveUserWrites)[0])
  {
  }

  /** The cell writes one action performs from `s`: `increasePoints` and `updateUser` each
      change the cached user once when they change it, and write nothing otherwise (the
      in-place change of `increasePoints` counts as one write of the user cell). */
  function Writes(s: Session, a: Action): seq<Write> {
    match a
    case SetUserAction(u) => SetUserWrites(u)
    case RemoveUserAction => RemoveUserWrites
    case IncreasePointsAction(add) =>
      if HasPoints(s) then [SetProfile(IncreasePoints(s, add).profile)] else []
    case UpdateUserAction(m) =>
      if s.profile.Some? then [SetProfile(UpdateUser(s, m).profile)] else []
  }

  /** Every action's writes end where `Apply` does, and from a state that is signed in only
      with a user cached, every state along the way is too. */
  lemma WritesKeepSignedInHasUser(s: Session, a: Action)
    requires SignedInHasUser(s)
    ensures var t := Trace(s, Writes(s, a));
      && (|t| == 0 ==> Apply(s, a) == s)
      && (|t| > 0 ==> t[|t| - 1] == Apply(s, a))
      && SignedInHasUser(Apply(s, a))
      && forall i :: 0 <= i < |t| ==> SignedInHasUser(t[i])
  {
    match a
    case SetUserAction(u) => SetUserWritesKeepSignedInHasUser(s, u);
    case RemoveUserAction => RemoveUserWritesKeepSignedInHasUser(s);
    case IncreasePointsAction(add) =>
    case UpdateUserAction(m) =>
  }

  /** Every state the cells pass through while `actions` run from `s`, write by write. */
  function RunTrace(s: Session, actions: seq<Action>): seq<Session>
    decreases |actions|
  {
    if |actions| == 0 then []
    else Trace(s, Writes(s, actions[0])) + RunTrace(Apply(s, actions[0]), actions[1..])
  }

  /** Whatever actions run, no subscriber ever sees the store signed in without a user:
      the weaker agreement holds at every intermediate write, not only between actions. */
  lemma {:induction false} RunTraceKeepsSignedInHasUser(s: Session, actions: seq<Action>)
    requires SignedInHasUser(s)
    ensures forall i :: 0 <= i < |RunTrace(s, actions)| ==> SignedInHasUser(RunTrace(s, actions)[i])
    decreases |actions|
  {
    if |actions| > 0 {
      var head := Trace(s, Writes(s, actions[0]));
      var s' := Apply(s, actions[0]);
      WritesKeepSignedInHasUser(s, actions[0]);
      RunTraceKeepsSignedInHasUser(s', actions[1..]);
      var t := RunTrace(s, actions);
      assert t == head + RunTrace(s', actions[1..]);
      forall i | 0 <= i < |t|
        ensures SignedInHasUser(t[i])
      {
        if i >= |head| {
          assert t[i] == RunTrace(s', actions[1..])[i - |head|];
        }
      }
    }
  }
}

=== FILE: seqs.dfy ===
/** Order-preserving filtering and mapping over sequences, the two shapes in which
    the content layer uses a collection query. */
module Seqs {

  /** The elements of `s` that satisfy `p`, in the order of `s`.
      Defined by appending at the back, the way a collection is enumerated. */
  function Filter<T>(s: seq<T>, p: T -> bool): (r: seq<T>)
    ensures |r| <= |s|
    ensures multiset(r) <= multiset(s)
    ensures forall i :: 0 <= i < |r| ==> p(r[i])
    ensures forall i :: 0 <= i < |s| && p(s[i]) ==> s[i] in r
    decreases |s|
  {
    if |s| == 0 then []
    else
      assert s == s[..|s| - 1] + [s[|s| - 1]];
      Filter(s[..|s| - 1], p) + (if p(s[|s| - 1]) then [s[|s| - 1]] else [])
  }

  /** `f` applied to every element of `s`, position by position. */
  function MapSeq<T, U>(s: seq<T>, f: T -> U): (r: seq<U>)
    ensures |r| == |s|
    ensures forall i :: 0 <= i < |s| ==> r[i] == f(s[i])
  {
    seq(|s|, i requires 0 <= i < |s| => f(s[i]))
  }

  /** Filtering one element more at the back appends at most that element. */
  lemma FilterSnoc<T>(s: seq<T>, x: T, p: T -> bool)
    ensures Filter(s + [x], p) == Filter(s, p) + (if p(x) then [x] else [])
  {
    assert (s + [x])[..|s + [x]| - 1] == s;
  }

  /** Filtering distributes over concatenation: the order of the collection is kept. */
  lemma {:induction false} FilterConcat<T>(a: seq<T>, b: seq<T>, p: T -> bool)
    ensures Filter(a + b, p) == Filter(a, p) + Filter(b, p)
    decreases |b|
  {
    if |b| == 0 {
      assert a + b == a;
    } else {
      var b' := b[..|b| - 1];
      var x := b[|b| - 1];
      var last := if p(x) then [x] else [];
      assert b == b' + [x];
      calc {
        Filter(a + b, p);
        == { assert a + b == (a + b') + [x]; }
        Filter((a + b') + [x], p);
        == { FilterSnoc(a + b', x, p); }
        Filter(a + b', p) + last;
        == { FilterConcat(a, b', p); }
        (Filter(a, p) + Filter(b', p)) + last;
        Filter(a, p) + (Filter(b', p) + last);
        == { FilterSnoc(b', x, p); }
        Filter(a, p) + Filter(b, p);
      }
    }
  }

  /** Mapping distributes over appending one element. */
  lemma MapSeqSnoc<T, U>(s: seq<T>, x: T, f: T -> U)
    ensures MapSeq(s + [x], f) == MapSeq(s, f) + [f(x)]
  {
  }

  /** A stronger filter keeps no more elements than a weaker one. */
  lemma {:induction false} FilterStrongerIsShorter<T>(s: seq<T>, p: T -> bool, q: T -> bool)
    requires forall x :: q(x) ==> p(x)
    ensures |Filter(s, q)| <= |Filter(s, p)|
    decreases |s|
  {
    if |s| > 0 {
      FilterStrongerIsShorter(s[..|s| - 1], p, q);
    }
  }

  /** A filter that nothing in `s` satisfies yields the empty sequence. */
  lemma FilterNone<T>(s: seq<T>, p: T -> bool)
    requires forall x :: x in s ==> !p(x)
    ensures Filter(s, p) == []
  {
  }

  /** Two disjoint filters whose union is a third split what the third keeps:
      every element it keeps goes to exactly one of the two, as often as it occurs. */
  lemma {:induction false} FilterPartition<T>(s: seq<T>, whole: T -> bool, p: T -> bool, q: T -> bool)
    requires forall x :: whole(x) <==> p(x) || q(x)
    requires forall x :: !(p(x) && q(x))
    ensures multiset(Filter(s, whole)) == multiset(Filter(s, p)) + multiset(Filter(s, q))
    ensures |Filter(s, whole)| == |Filter(s, p)| + |Filter(s, q)|
    decreases |s|
  {
    if |s| > 0 {
      FilterPartition(s[..|s| - 1], whole, p, q);
    }
  }
}

=== FILE: strings.dfy ===
/** The JavaScript string operations the content layer relies on, over `seq<char>`:
    `includes`, `startsWith`, `replace` with a string pattern, and `split('/')`. */
module Strings {
  import opened Wrappers

  /** The path separator the content layer splits slugs on. */
  const Sep: char := '/'

  /** `t` occurs in `s` starting at position `i`. */
  predicate OccursAt(s: string, t: string, i: nat) {
    i + |t| <= |s| && s[i..i + |t|] == t
  }

  /** `s.includes(t)`. */
  predicate Contains(s: string, t: string) {
    exists i: nat :: i <= |s| && OccursAt(s, t, i)
  }

  /** `s.startsWith(p)`. */
  predicate StartsWith(s: string, p: string) {
    |p| <= |s| && s[..|p|] == p
  }

  /** `i` is the leftmost position at which `t` occurs in `s`. */
  predicate FirstOccurrence(s: string, t: string, i: nat) {
    OccursAt(s, t, i) && forall j: nat :: j < i ==> !OccursAt(s, t, j)
  }

  /** The leftmost occurrence of `t` in `s` at or after position `k`, if any. */
  function IndexFrom(s: string, t: string, k: nat): (r: Option<nat>)
    ensures r.Some? ==> k <= r.value && OccursAt(s, t, r.value)
    ensures forall j: nat :: k <= j && (r.None? || j < r.value) ==> !OccursAt(s, t, j)
    decreases |s| - k
  {
    if k + |t| > |s| then None
    else if s[k..k + |t|] == t then Some(k)
    else IndexFrom(s, t, k + 1)
  }

  /** `s.indexOf(t)`, as an option rather than -1. */
  function IndexOf(s: string, t: string): (r: Option<nat>)
    ensures r.Some? <==> Contains(s, t)
    ensures r.Some? ==> FirstOccurrence(s, t, r.value)
  {
    IndexFrom(s, t, 0)
  }

  /** There is only one leftmost occurrence. */
  lemma FirstOccurrenceUnique(s: string, t: string, i: nat, j: nat)
    requires FirstOccurrence(s, t, i) && FirstOccurrence(s, t, j)
    ensures i == j
  {
  }

  /** `s.replace(pat, rep)` with a string pattern: only the leftmost occurrence is replaced,
      and a string without the pattern is returned unchanged. The replacement is inserted
      literally: JavaScript's `$` substitution patterns in `rep` are not modelled, which is
      exact for the replacement `/` the content layer uses. */
  function ReplaceFirst(s: string, pat: string, rep: string): (r: string)
    ensures !Contains(s, pat) ==> r == s
    ensures Contains(s, pat) ==>
      exists i: nat :: FirstOccurrence(s, pat, i) && r == s[..i] + rep + s[i + |pat|..]
  {
    match IndexOf(s, pat)
    case None => s
    case Some(i) => s[..i] + rep + s[i + |pat|..]
  }

  /** Knowing where the leftmost occurrence is determines the replacement. */
  lemma ReplaceAtFirstOccurrence(s: string, pat: string, rep: string, i: nat)
    requires FirstOccurrence(s, pat, i)
    ensures ReplaceFirst(s, pat, rep) == s[..i] + rep + s[i + |pat|..]
  {
    assert i <= |s|;
    var k: nat :| FirstOccurrence(s, pat, k) && ReplaceFirst(s, pat, rep) == s[..k] + rep + s[k + |pat|..];
    FirstOccurrenceUnique(s, pat, i, k);
  }

  /** `s.split('/')`: the pieces between separators, in order. There is always at least
      one piece, and a separator at either end yields an empty piece there. */
  function Split(s: string): (r: seq<string>)
    ensures |r| >= 1
    ensures forall k :: 0 <= k < |r| ==> Sep !in r[k]
    decreases |s|
  {
    if |s| == 0 then [""]
    else
      var rest := Split(s[1..]);
      if s[0] == Sep then [""] + rest
      else [[s[0]] + rest[0]] + rest[1..]
  }

  /** `parts.join('/')`, the inverse of `Split`. */
  function Join(parts: seq<string>): string
    decreases |parts|
  {
    if |parts| == 0 then ""
    else if |parts| == 1 then parts[0]
    else parts[0] + [Sep] + Join(parts[1..])
  }

  /** Joining the pieces of a split gives back the original string. */
  lemma {:induction false} JoinSplit(s: string)
    ensures Join(Split(s)) == s
    decreases |s|
  {
    if |s| > 0 {
      var rest := Split(s[1..]);
      JoinSplit(s[1..]);
      if s[0] == Sep {
        assert Split(s)[1..] == rest;
      } else {
        if |rest| == 1 {
          assert Join(Split(s)) == [s[0]] + rest[0];
        } else {
          assert Split(s)[1..] == rest[1..];
          assert Join(rest) == rest[0] + [Sep] + Join(rest[1..]);
        }
      }
      assert s == [s[0]] + s[1..];
    }
  }

  /** A piece free of separators, followed by a separator, splits off as the first piece. */
  lemma {:induction false} SplitAfterPiece(a: string, b: string)
    requires Sep !in a
    ensures Split(a + [Sep] + b) == [a] + Split(b)
    decreases |a|
  {
    if |a| == 0 {
      assert a + [Sep] + b == [Sep] + b;
      assert ([Sep] + b)[1..] == b;
    } else {
      SplitAfterPiece(a[1..], b);
      assert (a + [Sep] + b)[1..] == a[1..] + [Sep] + b;
      assert [a[0]] + a[1..] == a;
    }
  }

  /** A string free of separators is a single piece. */
  lemma {:induction false} SplitWithoutSep(a: string)
    requires Sep !in a
    ensures Split(a) == [a]
    decreases |a|
  {
    if |a| > 0 {
      SplitWithoutSep(a[1..]);
      assert [a[0]] + a[1..] == a;
    }
  }

  /** Splitting the join of separator-free pieces gives back the pieces. */
  lemma {:induction false} SplitJoin(parts: seq<string>)
    requires |parts| >= 1
    requires forall k :: 0 <= k < |parts| ==> Sep !in parts[k]
    ensures Split(Join(parts)) == parts
    decreases |parts|
  {
    if |parts| == 1 {
      SplitWithoutSep(parts[0]);
    } else {
      SplitJoin(parts[1..]);
      SplitAfterPiece(parts[0], Join(parts[1..]));
      assert [parts[0]] + parts[1..] == parts;
    }
  }

  /** A string splits into more than one piece exactly when it holds a separator. */
  lemma {:induction false} SplitManyIffSep(s: string)
    ensures |Split(s)| > 1 <==> Sep in s
    decreases |s|
  {
    if |s| > 0 {
      SplitManyIffSep(s[1..]);
      assert s == [s[0]] + s[1..];
    }
  }

  /** `"cat/".split('/')` is `["cat", ""]`: a trailing separator leaves an empty last piece. */
  lemma TrailingSep(c: string)
    requires Sep !in c
    ensures Split(c + [Sep]) == [c, ""]
  {
    SplitAfterPiece(c, "");
    assert c + [Sep] + "" == c + [Sep];
  }
}

=== FILE: wrappers.dfy ===
/** `Option` and `Result`: `Option` stands for the source's `null`/`undefined`,
    `Result` for a backend reply that carries either data or an error. */
module Wrappers {

  datatype Option<+T> = None | Some(value: T)

  datatype Result<+R, +E> = Success(value: R) | Failure(error: E)
}
